=== FILE: README.md ===
# weRec recommendation handler — a Dafny model

weRec is a small backend. It asks a language model for eight songs that suit a
listener's liked and disliked artists, genres and mood. It then decorates each
suggestion with a Spotify link and an album cover. This project models the decision
logic of its POST handler (`api/index.py`) and proves properties of that model:

- **The reply interpreter.** It trims the model's text. A text that opens with three
  backticks loses its leading and trailing backticks and every `"json"`, and is
  trimmed again. The text is then cut from the first `[` to the last `]`. The result
  goes to `json.loads`, and a fixed list of eight songs replaces anything that does
  not parse.
- **The enrichment loop.** It walks the parsed value in order. For each dictionary it
  reads `"song"` and `"artist"` and searches the catalog. When the search finds a
  track, the dictionary gains `spotify_url` and `album_image_url` together.
- **The catalog client.** `get_spotify_token` refuses to send a request unless both
  credentials are non-empty, and yields a token only on status 200.
  `search_spotify` returns nothing without a token. Otherwise it picks the first
  candidate whose artist list contains the requested artist, ignoring case. Failing
  that it takes candidate 0, and with no candidates it returns nothing. The link and
  the *second* image come from that one candidate.
- **The failure boundary.** Every exception on this path becomes the 500 answer:
  `KeyError`, `TypeError`, `AttributeError`, `IndexError`, an undecodable reply body,
  and a token or search request that gets no reply.

Files, one module each:

- `wrappers.dfy` (`Wrappers`): `Option` and `Result`.
- `values.dfy` (`Values`): decoded JSON values and the exception kinds.
- `pytext.dfy` (`PyText`): Python's `strip`, `find`, `rfind`, `replace(pat, "")` and `lower` over `seq<char>`.
- `interpreter.dfy` (`Interpreter`): lines 53-78.
- `catalog.dfy` (`Catalog`): lines 104-148.
- `handler.dfy` (`Handler`): the loop and the 200/500 answer, lines 80-96.

Everything outside the program is a parameter:

- `json.loads` is `parse: string -> Option<Json>`.
- The token endpoint is `exchange: Credentials -> TokenResponse`. Its reply is either
  no reply at all, or a status with a body. The body is not JSON, JSON that is not a
  dictionary, or a dictionary with or without `access_token`.
- The catalog search is `search: (Json, Json) -> SearchResponse`, keyed by the song and
  artist values. Its reply is classified by what line 132 makes of it: no reply, a body
  that is not JSON, a body or `tracks` entry that is not a dictionary, an `items` entry
  that cannot be iterated, an `items` entry that is a string or dictionary, or a list of
  tracks.
- The model's text is the input string `raw`.

Three behaviours of the source are worth spelling out, because a reader might expect otherwise:

- The status of a catalog search is never checked. An error reply with a JSON body,
  such as 401 for an expired token or 429 for rate limiting, has no `tracks`. Line 132
  turns it into an empty candidate list, so the item goes out unenriched and the
  answer can still be 200 (`Handler.NoCandidatesKeepsItem`). Only a request that gets
  no reply, a body that is not JSON, or JSON of the wrong shape raises and gives a 500.
- The fence step does not remove every backtick. `str.strip("`")` removes only the
  leading and trailing ones.
- Only a `json.loads` failure selects the fallback list. A reply that parses to a value
  the loop cannot walk raises inside the loop, and the answer is 500.

## Model

| member | source | states |
|---|---|---|
| PyText.LStrip | api/index.py:53 | the result is the suffix left after the longest run of leading characters to drop; it starts with a kept character |
| PyText.RStrip | api/index.py:53 | the result is the prefix left before the longest run of trailing characters to drop; it ends with a kept character |
| PyText.Strip | api/index.py:53 | the result neither starts nor ends with a character to drop, and is no longer than the input |
| PyText.StripUnique | api/index.py:57 | stripping a droppable prefix + trimmed core + droppable suffix returns exactly the core |
| PyText.StripKeepsCore | api/index.py:53 | a core with non-droppable ends survives stripping whole, with only parts of the surrounding text |
| PyText.Find | api/index.py:60 | `find`: -1 exactly when the character is absent, else the index of its first occurrence |
| PyText.RFind | api/index.py:61 | `rfind`: -1 exactly when the character is absent, else the index of its last occurrence |
| PyText.RemoveAll | api/index.py:57 | `replace(pat, "")` never lengthens the text |
| PyText.RemoveAllKeepsOtherCharacters | api/index.py:57 | deleting "json" keeps every character outside "json", in order and in number |
| PyText.RemoveAllAbsent | api/index.py:57 | a text without "json" is unchanged by the deletion |
| PyText.RemoveAllLeading | api/index.py:57 | a leading "json" is the first occurrence deleted |
| PyText.RemoveAllFirst | api/index.py:57 | `replace` keeps the text before the first occurrence, deletes that occurrence, and carries on after it; with RemoveAllAbsent this fixes the result on every input |
| PyText.RemoveAllCanCreateOccurrence | api/index.py:57 | one left-to-right pass is not idempotent: "jsjsonon" becomes "json", which still contains "json" |
| PyText.Lower | api/index.py:136 | `lower()` keeps the length and leaves no upper-case ASCII letter |
| PyText.LowerIdempotent | api/index.py:136 | lower-casing twice equals lower-casing once |
| PyText.LowerCharacters | api/index.py:136 | non-letters are kept; each upper-case ASCII letter maps to its lower-case partner |
| Interpreter.Unfence | api/index.py:56-57 | a text not opening with three backticks is untouched; otherwise the result has no surrounding whitespace and is at least three characters shorter |
| Interpreter.UnfenceStripsEnds | api/index.py:56-57 | for a fenced text, exactly the part between the leading and the trailing run of backticks goes through the "json" deletion and the second trim |
| Interpreter.UnfenceRoundTrip | api/index.py:55-57 | a trimmed content without "json", wrapped as "```json\n…\n```", comes back unchanged |
| Interpreter.UnfenceKeepsInnerBackticks | api/index.py:57 | only outer backticks are stripped: for m with no backtick and no whitespace at either end and no "json" anywhere, "```" + m + "```" yields m even when m holds backticks inside |
| Interpreter.SliceBrackets | api/index.py:59-63 | a missing bracket leaves the text; otherwise the result is empty exactly when every ']' precedes every '[', and else runs from '[' to ']' |
| Interpreter.SliceIsSpan | api/index.py:60-63 | the kept text is one contiguous span, with no '[' before it and no ']' after it |
| Interpreter.SliceUnique | api/index.py:60-63 | prose without '[' before a bracketed span and without ']' after it is cut away, leaving exactly the span |
| Interpreter.Extract | api/index.py:53-63 | the text handed to `json.loads` is never longer than the reply; an unfenced reply only loses its surrounding whitespace before the bracket step |
| Interpreter.ExtractFenced | api/index.py:53-63 | a fenced array without "json" reaches the parser exactly as written |
| Interpreter.ExtractIgnoresProse | api/index.py:53-63 | an unfenced reply with no '[' before its array and no ']' after it reaches the parser as the array alone |
| Interpreter.InterpretFenced | api/index.py:53-66 | a fenced array whose text contains no "json" and parses yields the parsed value, not the fallback |
| Interpreter.FallbackList | api/index.py:67-78 | on parse failure the result is the eight artist/song dictionaries of the fallback, in order |
| Interpreter.FallbackArtists | api/index.py:69-78 | the fallback has eight picks by eight different artists, from The Weeknd to Doja Cat |
| Catalog.GetToken | api/index.py:104-121 | no request without two non-empty credentials; a token exactly on status 200 with a dictionary body holding one; on 200, `KeyError` for a dictionary without it, `TypeError` for JSON that is not a dictionary, `DecodeError` for a body that is not JSON; a request error when there is no reply; nothing on any other status |
| Catalog.FirstMatch | api/index.py:134-140 | -1 exactly when no candidate matches, else the first matching position |
| Catalog.Search | api/index.py:123-148 | nothing without a token; a request error without a reply; `DecodeError` for a body that is not JSON; `AttributeError` when the body or its `tracks` is not a dictionary; `TypeError` when `items` cannot be iterated; for a string or dictionary `items`, nothing when empty, else `TypeError` (or `AttributeError` for a non-string artist); an error reply with a JSON body counts as no candidates; otherwise the first matching candidate, or candidate 0, or nothing for no candidates; link and image from that one track |
| Catalog.PrefersMatchingArtist | api/index.py:134-140 | with candidates [non-match, match] the second one is chosen |
| Catalog.SearchIgnoresCase | api/index.py:136 | for the same catalog reply, two spellings of the artist that lower-case alike give the same search result |
| Handler.Lookup | api/index.py:82 | nothing without a token; a find only when the catalog offered tracks for the item's song and artist |
| Handler.LookupFromCatalog | api/index.py:123-148 | what a lookup finds is the link and second image of one track the catalog offered for that song and artist |
| Handler.EnrichOne | api/index.py:81-85 | non-dictionaries raise `TypeError`; a missing "song", then a missing "artist", raises `KeyError`; success only for a readable dictionary |
| Handler.EnrichOneFollowsLookup | api/index.py:82-85 | for a readable item: the lookup's exception propagates, no track leaves the item unchanged, a found track adds both entries and changes nothing else |
| Handler.NoCandidatesKeepsItem | api/index.py:131-148 | a catalog reply with no candidates, as an error reply with a JSON body gives, leaves the item unchanged and the loop going |
| Handler.EnrichAll | api/index.py:80-85 | succeeds exactly when every item does; then same length, item by item |
| Handler.EnrichAllFirstFailure | api/index.py:80-85 | a failing loop fails with the exception of its first failing item, every earlier item having succeeded |
| Handler.Enrich | api/index.py:81-85 | a list succeeds exactly when every item does, item by item; any other value succeeds, unchanged, exactly when it is an empty dictionary or string, and otherwise raises `TypeError` |
| Handler.Respond | api/index.py:80-96 | a failed token fetch is a 500 with its exception; a list answers 200 exactly when every item passes, with each item as the loop leaves it; a non-list answers 200, unchanged, exactly when it is empty, else a `TypeError` 500 |
| Handler.RespondFirstFailure | api/index.py:80-96 | a 500 for a list carries the exception of its first failing item, and every item before it passed |
| Handler.RespondKeepsRecommendations | api/index.py:80-90 | each item of a 200 list keeps its artist and song, and is unchanged when its lookup found nothing or gains both entries of the found track |
| Handler.Handle | api/index.py:53-96 | end to end: a token failure is a 500 with its exception; otherwise 200 exactly when every interpreted item passes (or the interpreted non-list is empty), carrying each item as the loop leaves it |
| Handler.EnrichKeepsRecommendations | api/index.py:81-85 | every output item keeps its artist and song; it either equals its input or gains both entries from its found track |
| Handler.NoTokenNoEnrichment | api/index.py:124-125 | without a token a list of readable items comes back unchanged |
| Handler.NoCredentialsNoEnrichment | api/index.py:105-109 | when the reply is interpreted as a list of dictionaries each holding "song" and "artist", missing credentials send no request and answer 200 with that list unchanged |
| Handler.FallbackWithoutCredentials | api/index.py:65-85 | an unparseable reply without credentials answers exactly the eight fallback items |
| Handler.UnreadableFirstItem | api/index.py:81-82 | a list whose first item is unreadable fails: `TypeError` for a non-dictionary, `KeyError("song")` for a dictionary without "song", `KeyError("artist")` for one with "song" but without "artist" |
| Handler.ParsedButUnreadable | api/index.py:65-96 | when the token fetch does not fail, a reply that parses to a list with an unreadable first item is not replaced by the fallback; the answer is a 500 with that item's `TypeError`, `KeyError("song")` or `KeyError("artist")` |
| Handler.LookupFinds | api/index.py:134-147 | for a readable item whose artist is a string, with a token and a non-empty candidate list of two-image tracks, the lookup finds a track |
| Handler.EveryItemEnriched | api/index.py:80-85 | with a token, readable items whose artists are strings, and a catalog that answers every query with a non-empty list of two-image tracks, every item of the list gains both catalog entries |
| Handler.HandleEnrichesAll | api/index.py:53-96 | end to end, when a token is issued, the reply is interpreted as a list of readable items whose artists are strings, and the catalog answers every query with a non-empty list of two-image tracks: a same-length 200 list where every item carries `spotify_url` and `album_image_url` |

## Left out

- Request reading, header and response writing, and the `do_GET` liveness answer
  (api/index.py:26-36, 87-102): these are I/O. Decoding the request body
  and its missing-field defaults are part of that I/O. So is the 500 the source
  answers for an undecodable body.
- The prompt template and its formatting, the model call, and `GROQ_API_KEY`
  (api/index.py:8-23, 38-52): the model's text is an input, and the prompt never
  reaches the decision logic.
- HTTP requests, URL and query construction, and base64 credentials
  (api/index.py:111-118, 127-132): their results are parameters. A request that
  gets no reply is one outcome, `RequestError`; the many exception classes of
  `requests` are not told apart, since each ends in the same 500.
- PyText.RemoveAll: its own contract states only that the text does not grow.
  The scan itself is pinned down by RemoveAllFirst and RemoveAllAbsent, which
  together determine the result on every input.
- The internals of `json.loads`: it is the abstract parser `parse`.
- Catalog replies with malformed tracks: a track missing `artists`, `name`,
  `external_urls` or `album` would raise `KeyError`. Tracks are modelled as
  well-formed records, and the only malformation modelled is fewer than two images.
  A token response whose `access_token` is not a string is not modelled either.
- The order of dictionary keys: objects are maps. So the serialized response's key
  order (new keys last) is not modelled.
- The query text `f"{song} {artist}"`: the search parameter receives the song and
  artist values themselves.
- PyText.Lower: models `str.lower()` on ASCII letters only. Python also lower-cases
  other Unicode letters, so "BEYONCÉ" matches "Beyoncé" in the source but not here.
- PyText.LowerCharacters: its per-character map is the ASCII one, for the same reason.
- Catalog.FirstMatch: its artist comparison uses the ASCII-only lower-casing, so a
  non-ASCII artist spelled in another case does not match as it does in the source.
- Catalog.Search: picks its track through Catalog.FirstMatch and inherits the same
  ASCII-only case-insensitivity.
- api/recommend.py and api/test.py: a second, simpler variant and a one-off script.
  They hold no decision logic beyond the model above.

=== FILE: catalog.dfy ===
/** The music catalog client: the credential guard in front of the token exchange,
    and the rule that picks one track out of a search reply. The HTTP requests
    themselves are parameters: `exchange` answers the token request, and the
    search reply arrives as a `SearchResponse`. */
module Catalog {
  import opened Wrappers
  import opened Values
  import opened PyText

  /** Python truthiness of an optional string: `None` and "" are both false. */
  predicate Truthy(o: Option<string>) {
    o.Some? && o.value != ""
  }

  /** The client id and secret sent to the token endpoint. */
  datatype Credentials = Credentials(clientId: string, clientSecret: string)

  /** The body of the token endpoint's reply as `resp.json()` reads it: not JSON at all,
      JSON that is not a dictionary (a list, string, number, boolean or null, which
      `["access_token"]` cannot index by name), or a dictionary with or without an
      `access_token` entry. */
  datatype TokenBody = Undecodable | NotDictionary | Decoded(accessToken: Option<string>)

  /** What `requests.post` to the token endpoint produced: no reply (it raised), or a
      status code and a body. */
  datatype TokenResponse = TokenFailed | TokenReply(status: int, body: TokenBody)

  /** What fetching a token did: the request it sent (`None` when it sent none), and
      the token it returned, `None`, or the exception it raised. */
  datatype TokenOutcome = TokenOutcome(sent: Option<Credentials>, token: Result<Option<string>, Fault>)

  const StatusOk: int := 200
  const AccessTokenKey: string := "access_token"

  /** The endpoint answered with status 200, the only status whose body is read. */
  predicate Granted(reply: TokenResponse) {
    reply.TokenReply? && reply.status == StatusOk
  }

  /** `get_spotify_token`: no request at all unless both credentials are present and
      non-empty; otherwise one request, whose body is read only on status 200. */
  function GetToken(clientId: Option<string>, clientSecret: Option<string>,
                    exchange: Credentials -> TokenResponse): (r: TokenOutcome)
    ensures r.sent.None? <==> !Truthy(clientId) || !Truthy(clientSecret)
    ensures r.sent.None? ==> r.token == Success(None)
    ensures r.sent.Some? ==> r.sent.value == Credentials(clientId.value, clientSecret.value)
    ensures r.sent.Some? && exchange(r.sent.value).TokenFailed? ==> r.token == Failure(RequestError)
    ensures r.sent.Some? && exchange(r.sent.value).TokenReply? && !Granted(exchange(r.sent.value)) ==>
      r.token == Success(None)
    ensures (r.token.Success? && r.token.value.Some?) <==>
      (r.sent.Some? && Granted(exchange(r.sent.value)) &&
       exchange(r.sent.value).body.Decoded? && exchange(r.sent.value).body.accessToken.Some?)
    ensures r.token.Success? && r.token.value.Some? ==> r.token.value == exchange(r.sent.value).body.accessToken
    ensures r.token == Failure(DecodeError) <==>
      (r.sent.Some? && Granted(exchange(r.sent.value)) && exchange(r.sent.value).body.Undecodable?)
    ensures r.token == Failure(TypeError) <==>
      (r.sent.Some? && Granted(exchange(r.sent.value)) && exchange(r.sent.value).body.NotDictionary?)
    ensures r.token == Failure(KeyError(AccessTokenKey)) <==>
      (r.sent.Some? && Granted(exchange(r.sent.value)) && exchange(r.sent.value).body == Decoded(None))
  {
    if !Truthy(clientId) || !Truthy(clientSecret) then
      TokenOutcome(None, Success(None))
    else
      var creds := Credentials(clientId.value, clientSecret.value);
      match exchange(creds)
      case TokenFailed => TokenOutcome(Some(creds), Failure(RequestError))
      case TokenReply(status, body) =>
        if status != StatusOk then TokenOutcome(Some(creds), Success(None))
        else
          match body
          case Undecodable => TokenOutcome(Some(creds), Failure(DecodeError))
          case NotDictionary => TokenOutcome(Some(creds), Failure(TypeError))
          case Decoded(Some(tok)) => TokenOutcome(Some(creds), Success(Some(tok)))
          case Decoded(None) => TokenOutcome(Some(creds), Failure(KeyError(AccessTokenKey)))
  }

  /** One candidate of the search reply's `tracks.items`: the names of its artists,
      its `external_urls.spotify` link, and the urls of its album images, by size. */
  datatype Track = Track(artists: seq<string>, url: string, images: seq<string>)

  /** What `requests.get` to the search endpoint produced, by what
      `resp.json().get("tracks", {}).get("items", [])` makes of it:
      - `SearchFailed`: no reply (the request raised);
      - `NotJson`: a body that is not JSON;
      - `NotObject`: a body, or a `tracks` entry, that is not a dictionary, so `get` is missing;
      - `NotIterable`: an `items` entry that is null, a number or a boolean;
      - `Strings(count)`: an `items` entry that is a string or a dictionary, whose
        iteration yields `count` strings rather than tracks;
      - `Tracks(items)`: the candidate list, empty when `tracks` or `items` is missing,
        which is also what an error reply such as 401 or 429 with a JSON body gives. */
  datatype SearchResponse =
    | SearchFailed
    | NotJson
    | NotObject
    | NotIterable
    | Strings(count: nat)
    | Tracks(items: seq<Track>)

  /** The dictionary the search hands back: `spotify_url` and `album_image_url`. */
  datatype SpotifyData = SpotifyData(spotifyUrl: string, albumImageUrl: string)

  /** `[a["name"].lower() for a in t["artists"]]`. */
  function LowerAll(names: seq<string>): seq<string> {
    seq(|names|, i requires 0 <= i < |names| => Lower(names[i]))
  }

  /** The requested artist is one of the track's artists, ignoring case. */
  predicate Matches(artist: string, t: Track) {
    Lower(artist) in LowerAll(t.artists)
  }

  /** The position of the first candidate that matches, or -1 when none does. */
  function FirstMatch(artist: string, items: seq<Track>): (k: int)
    ensures -1 <= k < |items|
    ensures k == -1 <==> forall j :: 0 <= j < |items| ==> !Matches(artist, items[j])
    ensures 0 <= k ==> Matches(artist, items[k])
    ensures forall j :: 0 <= j < |items| && (k == -1 || j < k) ==> !Matches(artist, items[j])
    decreases |items|
  {
    if items == [] then -1
    else if Matches(artist, items[0]) then 0
    else
      var k := FirstMatch(artist, items[1..]);
      if k == -1 then -1 else k + 1
  }

  /** The reply built from one chosen track: its link and its SECOND image, which
      raises `IndexError` when the track has fewer than two images. */
  function TrackData(t: Track): Result<Option<SpotifyData>, Fault> {
    if |t.images| < 2 then Failure(IndexError) else Success(Some(SpotifyData(t.url, t.images[1])))
  }

  /** `search_spotify`: nothing without a token; otherwise the first candidate, in the
      order given, whose artists include the requested one ignoring case; failing that
      the first candidate; and nothing when there are no candidates. Link and image
      always come from the same candidate. A reply of the wrong shape raises what the
      corresponding Python operation raises. */
  function Search(artist: Json, token: Option<string>, response: SearchResponse): (r: Result<Option<SpotifyData>, Fault>)
    ensures !Truthy(token) ==> r == Success(None)
    ensures Truthy(token) && response.SearchFailed? ==> r == Failure(RequestError)
    ensures Truthy(token) && response.NotJson? ==> r == Failure(DecodeError)
    ensures Truthy(token) && response.NotObject? ==> r == Failure(AttributeError)
    ensures Truthy(token) && response.NotIterable? ==> r == Failure(TypeError)
    ensures Truthy(token) && response.Strings? ==> (r == Success(None) <==> response.count == 0)
    ensures Truthy(token) && response.Strings? && response.count > 0 ==>
      r == Failure(if artist.JString? then TypeError else AttributeError)
    ensures Truthy(token) && response == Tracks([]) ==> r == Success(None)
    ensures Truthy(token) && response.Tracks? && response.items != [] && !artist.JString? ==>
      r == Failure(AttributeError)
    ensures Truthy(token) && response.Tracks? && artist.JString? ==>
      forall i :: (0 <= i < |response.items| && Matches(artist.s, response.items[i]) &&
                   (forall j :: 0 <= j < i ==> !Matches(artist.s, response.items[j])))
                  ==> r == TrackData(response.items[i])
    ensures (Truthy(token) && response.Tracks? && response.items != [] && artist.JString? &&
             (forall j :: 0 <= j < |response.items| ==> !Matches(artist.s, response.items[j])))
            ==> r == TrackData(response.items[0])
  {
    if !Truthy(token) then Success(None)
    else
      match response
      case SearchFailed => Failure(RequestError)
      case NotJson => Failure(DecodeError)
      case NotObject => Failure(AttributeError)
      case NotIterable => Failure(TypeError)
      case Strings(count) =>
        if count == 0 then Success(None)
        else if artist.JString? then Failure(TypeError)
        else Failure(AttributeError)
      case Tracks(items) =>
        if items == [] then Success(None)
        else
          match artist
          case JString(a) =>
            var k := FirstMatch(a, items);
            TrackData(items[if k == -1 then 0 else k])
          case _ => Failure(AttributeError)
  }

  /** A later candidate whose artist matches beats an earlier one that does not. */
  lemma PrefersMatchingArtist(a: string, token: Option<string>, x: Track, y: Track)
    requires Truthy(token)
    requires !Matches(a, x) && Matches(a, y)
    ensures Search(JString(a), token, Tracks([x, y])) == TrackData(y)
  {
    var items := [x, y];
    assert items[0] == x && items[1] == y;
  }

  /** Only the lower-cased form of the requested artist matters. */
  lemma SearchIgnoresCase(a: string, b: string, token: Option<string>, response: SearchResponse)
    requires Lower(a) == Lower(b)
    ensures Search(JString(a), token, response) == Search(JString(b), token, response)
  {
    if Truthy(token) && response.Tracks? && response.items != [] {
      var items := response.items;
      assert forall t :: Matches(a, t) <==> Matches(b, t);
      var ka := FirstMatch(a, items);
      var kb := FirstMatch(b, items);
      assert ka == kb by {
        if ka == -1 {
        } else {
          assert Matches(b, items[ka]);
        }
      }
    }
  }
}

=== FILE: handler.dfy ===
/** The decision path of the POST handler once the model has answered: interpret the
    reply, fetch one catalog token, walk the recommendations in order attaching
    catalog data, and answer 200 with the list or 500 with the exception raised. */
module Handler {
  import opened Wrappers
  import opened Values
  import opened Interpreter
  import opened Catalog

  const UrlKey: string := "spotify_url"
  const ImageKey: string := "album_image_url"

  /** The catalog search as seen from the loop: the decoded reply to the query built
      from a recommendation's song and artist. */
  type SearchFn = (Json, Json) -> SearchResponse

  /** A recommendation the loop can read: a dictionary holding "song" and "artist". */
  predicate Readable(rec: Json) {
    rec.JObject? && SongKey in rec.fields && ArtistKey in rec.fields
  }

  /** The catalog's reply to the query for a readable recommendation's song and artist. */
  function Query(rec: Json, search: SearchFn): SearchResponse
    requires Readable(rec)
  {
    search(rec.fields[SongKey], rec.fields[ArtistKey])
  }

  /** `search_spotify(rec["song"], rec["artist"], token)` for a readable recommendation:
      nothing without a token, and a find only from a catalog reply that offered tracks. */
  function Lookup(rec: Json, token: Option<string>, search: SearchFn): (r: Result<Option<SpotifyData>, Fault>)
    requires Readable(rec)
    ensures !Truthy(token) ==> r == Success(None)
    ensures r.Success? && r.value.Some? ==> Truthy(token) && Query(rec, search).Tracks? && Query(rec, search).items != []
  {
    Search(rec.fields[ArtistKey], token, Query(rec, search))
  }

  /** What a lookup finds is the link and second image of one track the catalog
      offered for this recommendation's song and artist. */
  lemma LookupFromCatalog(rec: Json, token: Option<string>, search: SearchFn) returns (t: Track)
    requires Readable(rec) && Lookup(rec, token, search).Success? && Lookup(rec, token, search).value.Some?
    ensures t in Query(rec, search).items && |t.images| >= 2
    ensures Lookup(rec, token, search).value.value == SpotifyData(t.url, t.images[1])
  {
    var reply := Query(rec, search);
    var k := FirstMatch(rec.fields[ArtistKey].s, reply.items);
    t := reply.items[if k == -1 then 0 else k];
  }

  /** A value that `for rec in ...` walks without reaching an item that is not a
      dictionary: an empty dictionary (no keys) or an empty string (no characters). */
  predicate EmptyIterable(v: Json) {
    (v.JObject? && v.fields == map[]) || (v.JString? && v.s == "")
  }

  /** `after` is `before` with both catalog entries set from `d`, and every other
      entry as it was. */
  ghost predicate Attached(before: Json, after: Json, d: SpotifyData) {
    && before.JObject? && after.JObject?
    && after.fields.Keys == before.fields.Keys + {UrlKey, ImageKey}
    && after.fields[UrlKey] == JString(d.spotifyUrl)
    && after.fields[ImageKey] == JString(d.albumImageUrl)
    && forall k :: k in before.fields && k != UrlKey && k != ImageKey ==> after.fields[k] == before.fields[k]
  }

  /** One pass of the loop body: read "song" then "artist", look the pair up, and
      attach both catalog entries when the lookup finds a track. */
  function EnrichOne(rec: Json, token: Option<string>, search: SearchFn): (r: Result<Json, Fault>)
    ensures !rec.JObject? ==> r == Failure(TypeError)
    ensures rec.JObject? && SongKey !in rec.fields ==> r == Failure(KeyError(SongKey))
    ensures rec.JObject? && SongKey in rec.fields && ArtistKey !in rec.fields ==> r == Failure(KeyError(ArtistKey))
    ensures r.Success? ==> Readable(rec) && r.value.JObject?
  {
    match rec
    case JObject(m) =>
      if SongKey !in m then Failure(KeyError(SongKey))
      else if ArtistKey !in m then Failure(KeyError(ArtistKey))
      else
        (match Lookup(rec, token, search)
         case Failure(e) => Failure(e)
         case Success(None) => Success(rec)
         case Success(Some(d)) =>
           Success(JObject(m[UrlKey := JString(d.spotifyUrl)][ImageKey := JString(d.albumImageUrl)])))
    case _ => Failure(TypeError)
  }

  /** For a readable recommendation the loop body does what the lookup says: it raises
      the lookup's exception, keeps the item when nothing is found, and otherwise adds
      both catalog entries of the found track and changes nothing else. */
  lemma EnrichOneFollowsLookup(rec: Json, token: Option<string>, search: SearchFn)
    requires Readable(rec)
    ensures var l := Lookup(rec, token, search);
      l.Failure? ==> EnrichOne(rec, token, search) == Failure(l.error)
    ensures var l := Lookup(rec, token, search);
      l == Success(None) ==> EnrichOne(rec, token, search) == Success(rec)
    ensures var l := Lookup(rec, token, search);
      l.Success? && l.value.Some? ==>
        EnrichOne(rec, token, search).Success? &&
        Attached(rec, EnrichOne(rec, token, search).value, l.value.value)
  {
    match Lookup(rec, token, search)
    case Failure(_) =>
    case Success(None) =>
    case Success(Some(d)) =>
      var m := rec.fields;
      var after := m[UrlKey := JString(d.spotifyUrl)][ImageKey := JString(d.albumImageUrl)];
      assert EnrichOne(rec, token, search) == Success(JObject(after));
      assert after.Keys == m.Keys + {UrlKey, ImageKey};
  }

  /** A catalog reply with no candidates, which is what an error status with a JSON
      body such as an expired token or a rate limit gives, leaves the recommendation
      as it was: the loop goes on and the answer can still be 200. */
  lemma NoCandidatesKeepsItem(rec: Json, token: Option<string>, search: SearchFn)
    requires Readable(rec) && Query(rec, search) == Tracks([])
    ensures EnrichOne(rec, token, search) == Success(rec)
  {
    EnrichOneFollowsLookup(rec, token, search);
  }

  /** The loop over a list: every item in order; the first exception stops it. */
  function EnrichAll(items: seq<Json>, token: Option<string>, search: SearchFn): (r: Result<seq<Json>, Fault>)
    ensures r.Success? <==> forall i :: 0 <= i < |items| ==> EnrichOne(items[i], token, search).Success?
    ensures r.Success? ==> |r.value| == |items|
    ensures r.Success? ==> forall i :: 0 <= i < |items| ==> r.value[i] == EnrichOne(items[i], token, search).value
    decreases |items|
  {
    if items == [] then Success([])
    else
      match EnrichOne(items[0], token, search)
      case Failure(e) => Failure(e)
      case Success(first) =>
        match EnrichAll(items[1..], token, search)
        case Failure(e) =>
          assert forall i :: 1 <= i < |items| ==> items[1..][i - 1] == items[i];
          Failure(e)
        case Success(rest) =>
          assert forall i :: 1 <= i < |items| ==> items[1..][i - 1] == items[i];
          Success([first] + rest)
  }

  /** A failing loop fails with the exception of its first failing item: every item
      before it went through. */
  lemma {:induction false} EnrichAllFirstFailure(items: seq<Json>, token: Option<string>, search: SearchFn)
    returns (k: nat)
    requires EnrichAll(items, token, search).Failure?
    ensures k < |items|
    ensures EnrichOne(items[k], token, search) == Failure(EnrichAll(items, token, search).error)
    ensures forall j :: 0 <= j < k ==> EnrichOne(items[j], token, search).Success?
    decreases |items|
  {
    if EnrichOne(items[0], token, search).Failure? {
      k := 0;
    } else {
      var k' := EnrichAllFirstFailure(items[1..], token, search);
      k := k' + 1;
      assert forall j :: 1 <= j < |items| ==> items[1..][j - 1] == items[j];
    }
  }

  /** `for rec in recommendations` over whatever the reply parsed to: a list is walked
      item by item; an empty dictionary or string has nothing to walk; a non-empty one
      yields a string item, which `rec["song"]` rejects; a scalar cannot be walked. */
  function Enrich(recs: Json, token: Option<string>, search: SearchFn): (r: Result<Json, Fault>)
    ensures recs.JArray? ==>
      (r.Success? <==> forall i :: 0 <= i < |recs.items| ==> EnrichOne(recs.items[i], token, search).Success?)
    ensures r.Success? && recs.JArray? ==>
      && r.value.JArray? && |r.value.items| == |recs.items|
      && forall i :: 0 <= i < |recs.items| ==> r.value.items[i] == EnrichOne(recs.items[i], token, search).value
    ensures !recs.JArray? ==> (r.Success? <==> EmptyIterable(recs))
    ensures !recs.JArray? && r.Success? ==> r.value == recs
    ensures !recs.JArray? && r.Failure? ==> r.error == TypeError
  {
    match recs
    case JArray(items) =>
      (match EnrichAll(items, token, search)
       case Success(out) => Success(JArray(out))
       case Failure(e) => Failure(e))
    case JObject(m) => if m == map[] then Success(recs) else Failure(TypeError)
    case JString(s) => if s == "" then Success(recs) else Failure(TypeError)
    case _ => Failure(TypeError)
  }

  /** The HTTP answer: 200 with a JSON body, or 500 carrying the exception. */
  datatype Response = Ok(body: Json) | ServerError(fault: Fault)

  /** The handler after interpretation: the token fetch has returned `token` (or
      raised), and the loop runs over `recs`. A 200 carries the walked value; any
      exception on the way is the 500. */
  function Respond(recs: Json, token: Result<Option<string>, Fault>, search: SearchFn): (r: Response)
    ensures token.Failure? ==> r == ServerError(token.error)
    ensures token.Success? && recs.JArray? ==>
      (r.Ok? <==> forall i :: 0 <= i < |recs.items| ==> EnrichOne(recs.items[i], token.value, search).Success?)
    ensures token.Success? && !recs.JArray? ==> (r.Ok? <==> EmptyIterable(recs))
    ensures token.Success? && !recs.JArray? && r.ServerError? ==> r.fault == TypeError
    ensures r.Ok? && !recs.JArray? ==> r.body == recs
    ensures token.Success? && r.Ok? && recs.JArray? ==>
      && r.body.JArray? && |r.body.items| == |recs.items|
      && forall i :: 0 <= i < |recs.items| ==> r.body.items[i] == EnrichOne(recs.items[i], token.value, search).value
  {
    match token
    case Failure(e) => ServerError(e)
    case Success(tok) =>
      match Enrich(recs, tok, search)
      case Success(v) => Ok(v)
      case Failure(e) => ServerError(e)
  }

  /** `do_POST` from the model's reply onwards: whether it answers 200 or 500, and
      what a 200 carries, in terms of the interpreted reply and the token fetch. */
  function Handle(raw: string, parse: string -> Option<Json>,
                  clientId: Option<string>, clientSecret: Option<string>,
                  exchange: Credentials -> TokenResponse, search: SearchFn): (r: Response)
    ensures var tok := GetToken(clientId, clientSecret, exchange).token;
      tok.Failure? ==> r == ServerError(tok.error)
    ensures var recs, tok := Interpret(raw, parse), GetToken(clientId, clientSecret, exchange).token;
      tok.Success? && recs.JArray? ==>
        (r.Ok? <==> forall i :: 0 <= i < |recs.items| ==> EnrichOne(recs.items[i], tok.value, search).Success?)
    ensures var recs, tok := Interpret(raw, parse), GetToken(clientId, clientSecret, exchange).token;
      tok.Success? && !recs.JArray? ==> (r.Ok? <==> EmptyIterable(recs))
    ensures r.Ok? && !Interpret(raw, parse).JArray? ==> r.body == Interpret(raw, parse)
    ensures var recs, tok := Interpret(raw, parse), GetToken(clientId, clientSecret, exchange).token;
      tok.Success? && r.Ok? && recs.JArray? ==>
        && r.body.JArray? && |r.body.items| == |recs.items|
        && forall i :: 0 <= i < |recs.items| ==> r.body.items[i] == EnrichOne(recs.items[i], tok.value, search).value
  {
    Respond(Interpret(raw, parse), GetToken(clientId, clientSecret, exchange).token, search)
  }

  /** A 500 for a list carries the exception of its first failing item; every item
      before that one went through. */
  lemma RespondFirstFailure(recs: Json, token: Option<string>, search: SearchFn) returns (k: nat)
    requires recs.JArray? && Respond(recs, Success(token), search).ServerError?
    ensures k < |recs.items|
    ensures EnrichOne(recs.items[k], token, search) == Failure(Respond(recs, Success(token), search).fault)
    ensures forall j :: 0 <= j < k ==> EnrichOne(recs.items[j], token, search).Success?
  {
    k := EnrichAllFirstFailure(recs.items, token, search);
  }

  /** Every item of a 200 list is its recommendation as the loop leaves it. */
  lemma RespondKeepsRecommendations(recs: Json, token: Option<string>, search: SearchFn)
    requires recs.JArray? && Respond(recs, Success(token), search).Ok?
    ensures var body := Respond(recs, Success(token), search).body;
      && body.JArray? && |body.items| == |recs.items|
      && forall i :: 0 <= i < |recs.items| ==> EnrichedFrom(recs.items[i], body.items[i], token, search)
  {
    EnrichKeepsRecommendations(recs.items, token, search);
  }

  /** `after` is the readable recommendation `before` as one pass of the loop leaves
      it: its lookup succeeded, artist and song are as they were, and it is unchanged
      when nothing was found and gained both entries of the found track otherwise. */
  ghost predicate EnrichedFrom(before: Json, after: Json, token: Option<string>, search: SearchFn) {
    && Readable(before) && after.JObject?
    && ArtistKey in after.fields && after.fields[ArtistKey] == before.fields[ArtistKey]
    && SongKey in after.fields && after.fields[SongKey] == before.fields[SongKey]
    && var l := Lookup(before, token, search);
       && l.Success?
       && (l.value.None? ==> after == before)
       && (l.value.Some? ==> Attached(before, after, l.value.value))
  }

  /** Enrichment keeps every recommendation in place: same position, same artist and
      song; an item changes only by gaining both catalog entries from the track its
      lookup found, and stays as it was when the lookup found nothing. */
  lemma EnrichKeepsRecommendations(items: seq<Json>, token: Option<string>, search: SearchFn)
    requires EnrichAll(items, token, search).Success?
    ensures forall i :: 0 <= i < |items| ==> EnrichedFrom(items[i], EnrichAll(items, token, search).value[i], token, search)
  {
    forall i | 0 <= i < |items|
      ensures EnrichedFrom(items[i], EnrichAll(items, token, search).value[i], token, search)
    {
      assert EnrichOne(items[i], token, search).Success?;
      EnrichOneFollowsLookup(items[i], token, search);
    }
  }

  /** Without a token the loop changes nothing: a list of readable recommendations
      comes back as it was. */
  lemma NoTokenNoEnrichment(items: seq<Json>, search: SearchFn)
    requires forall i :: 0 <= i < |items| ==> Readable(items[i])
    ensures EnrichAll(items, None, search) == Success(items)
  {
    forall i | 0 <= i < |items|
      ensures EnrichOne(items[i], None, search) == Success(items[i])
    {
      EnrichOneFollowsLookup(items[i], None, search);
    }
    var r := EnrichAll(items, None, search);
    assert r.Success? && |r.value| == |items|;
    assert forall i :: 0 <= i < |items| ==> r.value[i] == items[i];
    assert r.value == items;
    assert r == Success(items);
  }

  /** A list the loop leaves as it is goes out as it came in. */
  lemma RespondUnchanged(recs: Json, search: SearchFn)
    requires recs.JArray? && EnrichAll(recs.items, None, search) == Success(recs.items)
    ensures Respond(recs, Success(None), search) == Ok(recs)
  {
  }

  /** Without both credentials no request is made and no lookup happens: a list of
      readable recommendations is answered exactly as interpreted. */
  lemma NoCredentialsNoEnrichment(raw: string, parse: string -> Option<Json>,
                                   clientId: Option<string>, clientSecret: Option<string>,
                                   exchange: Credentials -> TokenResponse, search: SearchFn)
    requires !Truthy(clientId) || !Truthy(clientSecret)
    requires Interpret(raw, parse).JArray?
    requires forall i :: 0 <= i < |Interpret(raw, parse).items| ==> Readable(Interpret(raw, parse).items[i])
    ensures GetToken(clientId, clientSecret, exchange).sent.None?
    ensures Handle(raw, parse, clientId, clientSecret, exchange, search) == Ok(Interpret(raw, parse))
  {
    var recs := Interpret(raw, parse);
    assert GetToken(clientId, clientSecret, exchange).token == Success(None);
    NoTokenNoEnrichment(recs.items, search);
    RespondUnchanged(recs, search);
  }

  /** An unparseable reply without catalog credentials is answered with exactly the
      eight fallback recommendations, unenriched. */
  lemma FallbackWithoutCredentials(raw: string, parse: string -> Option<Json>,
                                     clientId: Option<string>, clientSecret: Option<string>,
                                     exchange: Credentials -> TokenResponse, search: SearchFn)
    requires !Truthy(clientId) || !Truthy(clientSecret)
    requires parse(Extract(raw)).None?
    ensures Handle(raw, parse, clientId, clientSecret, exchange, search) == Ok(FallbackJson())
  {
    ParseFailureFallsBack(raw, parse);
    FallbackReadable();
    assert GetToken(clientId, clientSecret, exchange).token == Success(None);
    NoTokenNoEnrichment(FallbackJson().items, search);
    RespondUnchanged(FallbackJson(), search);
  }

  /** Every fallback recommendation is a dictionary with "song" and "artist". */
  lemma FallbackReadable()
    ensures FallbackJson().JArray?
    ensures forall i :: 0 <= i < |FallbackJson().items| ==> Readable(FallbackJson().items[i])
  {
    var items := FallbackJson().items;
    forall i | 0 <= i < |items|
      ensures Readable(items[i])
    {
      assert items[i] == PickJson(Fallback[i]);
    }
  }

  /** A list the loop cannot read raises at its first unreadable item, before any
      lookup of that item: a non-dictionary raises `TypeError`, a dictionary without
      "song" raises `KeyError("song")`, and one with "song" but without "artist" raises
      `KeyError("artist")`. */
  lemma UnreadableFirstItem(items: seq<Json>, token: Option<string>, search: SearchFn)
    requires items != [] && !Readable(items[0])
    ensures EnrichAll(items, token, search).Failure?
    ensures !items[0].JObject? ==> EnrichAll(items, token, search) == Failure(TypeError)
    ensures items[0].JObject? && SongKey !in items[0].fields ==> EnrichAll(items, token, search) == Failure(KeyError(SongKey))
    ensures items[0].JObject? && SongKey in items[0].fields ==> EnrichAll(items, token, search) == Failure(KeyError(ArtistKey))
  {
    assert EnrichOne(items[0], token, search).Failure?;
  }

  /** A list with an unreadable first item is answered with that item's exception. */
  lemma RespondUnreadable(v: Json, token: Option<string>, search: SearchFn)
    requires v.JArray? && v.items != [] && !Readable(v.items[0])
    ensures Respond(v, Success(token), search).ServerError?
    ensures !v.items[0].JObject? ==> Respond(v, Success(token), search) == ServerError(TypeError)
    ensures v.items[0].JObject? && SongKey !in v.items[0].fields ==>
      Respond(v, Success(token), search) == ServerError(KeyError(SongKey))
    ensures v.items[0].JObject? && SongKey in v.items[0].fields ==>
      Respond(v, Success(token), search) == ServerError(KeyError(ArtistKey))
  {
    UnreadableFirstItem(v.items, token, search);
  }

  /** A reply that parses to a value the loop cannot read is not replaced by the
      fallback: the first unreadable item raises and the answer is a 500. */
  lemma ParsedButUnreadable(raw: string, parse: string -> Option<Json>,
                              clientId: Option<string>, clientSecret: Option<string>,
                              exchange: Credentials -> TokenResponse, search: SearchFn, v: Json)
    requires parse(Extract(raw)) == Some(v)
    requires GetToken(clientId, clientSecret, exchange).token.Success?
    requires v.JArray? && v.items != [] && !Readable(v.items[0])
    ensures Interpret(raw, parse) == v
    ensures Handle(raw, parse, clientId, clientSecret, exchange, search).ServerError?
    ensures !v.items[0].JObject? ==> Handle(raw, parse, clientId, clientSecret, exchange, search) == ServerError(TypeError)
    ensures v.items[0].JObject? && SongKey !in v.items[0].fields ==>
      Handle(raw, parse, clientId, clientSecret, exchange, search) == ServerError(KeyError(SongKey))
    ensures v.items[0].JObject? && SongKey in v.items[0].fields ==>
      Handle(raw, parse, clientId, clientSecret, exchange, search) == ServerError(KeyError(ArtistKey))
  {
    var token := GetToken(clientId, clientSecret, exchange).token;
    assert Interpret(raw, parse) == v;
    RespondUnreadable(v, token.value, search);
  }

  /** The lookup of a readable item with a text artist finds a track when there is a
      token and the catalog offers at least one track, every one with two images. */
  lemma LookupFinds(rec: Json, token: Option<string>, search: SearchFn)
    requires Truthy(token) && Readable(rec) && rec.fields[ArtistKey].JString?
    requires search(rec.fields[SongKey], rec.fields[ArtistKey]).Tracks?
    requires search(rec.fields[SongKey], rec.fields[ArtistKey]).items != []
    requires forall t :: t in search(rec.fields[SongKey], rec.fields[ArtistKey]).items ==> |t.images| >= 2
    ensures Lookup(rec, token, search).Success? && Lookup(rec, token, search).value.Some?
  {
    var reply := search(rec.fields[SongKey], rec.fields[ArtistKey]);
    var k := FirstMatch(rec.fields[ArtistKey].s, reply.items);
    var chosen := reply.items[if k == -1 then 0 else k];
    assert chosen in reply.items;
  }

  /** With a token, readable items naming their artist as text, and a catalog that
      answers every query with at least one track having two images, every item of
      the list comes back with both catalog entries. */
  lemma EveryItemEnriched(items: seq<Json>, token: Option<string>, search: SearchFn)
    requires Truthy(token)
    requires forall i :: 0 <= i < |items| ==> Readable(items[i]) && items[i].fields[ArtistKey].JString?
    requires forall song, artist ::
      (search(song, artist).Tracks? && search(song, artist).items != [] &&
       forall t :: t in search(song, artist).items ==> |t.images| >= 2)
    ensures EnrichAll(items, token, search).Success?
    ensures forall i :: 0 <= i < |items| ==>
      var out := EnrichAll(items, token, search).value[i];
      out.JObject? && UrlKey in out.fields && ImageKey in out.fields
  {
    forall i | 0 <= i < |items|
      ensures Lookup(items[i], token, search).Success? && Lookup(items[i], token, search).value.Some?
      ensures EnrichOne(items[i], token, search).Success?
      ensures Attached(items[i], EnrichOne(items[i], token, search).value, Lookup(items[i], token, search).value.value)
    {
      LookupFinds(items[i], token, search);
      EnrichOneFollowsLookup(items[i], token, search);
    }
    var r := EnrichAll(items, token, search);
    assert r.Success?;
    forall i | 0 <= i < |items|
      ensures r.value[i].JObject? && UrlKey in r.value[i].fields && ImageKey in r.value[i].fields
    {
      assert Attached(items[i], r.value[i], Lookup(items[i], token, search).value.value);
    }
  }

  /** A list whose every item gained both catalog entries goes out as a 200 list. */
  lemma RespondEnriched(recs: Json, token: Option<string>, search: SearchFn)
    requires recs.JArray? && EnrichAll(recs.items, token, search).Success?
    requires forall i :: 0 <= i < |recs.items| ==>
      var out := EnrichAll(recs.items, token, search).value[i];
      out.JObject? && UrlKey in out.fields && ImageKey in out.fields
    ensures Respond(recs, Success(token), search).Ok?
    ensures var body := Respond(recs, Success(token), search).body;
      && body.JArray? && |body.items| == |recs.items|
      && forall i :: 0 <= i < |body.items| ==>
           body.items[i].JObject? && UrlKey in body.items[i].fields && ImageKey in body.items[i].fields
  {
  }

  /** The end-to-end case: a token is issued, the reply interprets to readable
      recommendations, and the catalog always has a track; the answer is a 200 list of
      the same length in which every recommendation carries both catalog entries. */
  lemma HandleEnrichesAll(raw: string, parse: string -> Option<Json>,
                            clientId: Option<string>, clientSecret: Option<string>,
                            exchange: Credentials -> TokenResponse, search: SearchFn)
    requires GetToken(clientId, clientSecret, exchange).token.Success?
    requires Truthy(GetToken(clientId, clientSecret, exchange).token.value)
    requires Interpret(raw, parse).JArray?
    requires forall i :: 0 <= i < |Interpret(raw, parse).items| ==>
      Readable(Interpret(raw, parse).items[i]) && Interpret(raw, parse).items[i].fields[ArtistKey].JString?
    requires forall song, artist ::
      (search(song, artist).Tracks? && search(song, artist).items != [] &&
       forall t :: t in search(song, artist).items ==> |t.images| >= 2)
    ensures Handle(raw, parse, clientId, clientSecret, exchange, search).Ok?
    ensures var body := Handle(raw, parse, clientId, clientSecret, exchange, search).body;
      && body.JArray? && |body.items| == |Interpret(raw, parse).items|
      && forall i :: 0 <= i < |body.items| ==>
           body.items[i].JObject? && UrlKey in body.items[i].fields && ImageKey in body.items[i].fields
  {
    var token := GetToken(clientId, clientSecret, exchange).token;
    var recs := Interpret(raw, parse);
    EveryItemEnriched(recs.items, token.value, search);
    RespondEnriched(recs, token.value, search);
  }
}

=== FILE: interpreter.dfy ===
/** How the handler turns the language model's reply into a recommendation list:
    trim, strip a code fence, cut out the bracketed array, parse, and fall back to
    a fixed list when parsing fails. `json.loads` is the parameter `parse`. */
module Interpreter {
  import opened Wrappers
  import opened Values
  import opened PyText

  /** One suggested track, as the fallback list spells it. */
  datatype Pick = Pick(artist: string, song: string)

  /** The eight tracks the handler answers with when the reply does not parse. */
  const Fallback: seq<Pick> := [
    Pick("The Weeknd", "Blinding Lights"),
    Pick("Arctic Monkeys", "Do I Wanna Know?"),
    Pick("Frank Ocean", "Nikes"),
    Pick("Dua Lipa", "Levitating"),
    Pick("Tame Impala", "The Less I Know the Better"),
    Pick("Kendrick Lamar", "HUMBLE."),
    Pick("Billie Eilish", "Happier Than Ever"),
    Pick("Doja Cat", "Say So")
  ]

  const ArtistKey: string := "artist"
  const SongKey: string := "song"

  /** A pick as the dictionary `{"artist": ..., "song": ...}`. */
  function PickJson(p: Pick): Json {
    JObject(map[ArtistKey := JString(p.artist), SongKey := JString(p.song)])
  }

  /** The fallback list as the Python list of dictionaries. */
  function FallbackJson(): Json {
    JArray(seq(|Fallback|, i requires 0 <= i < |Fallback| => PickJson(Fallback[i])))
  }

  /** The opening of a Markdown code fence. */
  const Fence: string := "```"

  /** The language tag the model puts after the fence, deleted everywhere by the fence step. */
  const Tag: string := "json"

  predicate IsBacktick(c: char) {
    c == '`'
  }

  /** Stripping backticks off a fenced text removes at least the opening fence. */
  lemma FenceShortens(t: string)
    requires Fence <= t
    ensures |Strip(t, IsBacktick)| + |Fence| <= |t|
  {
    var l := LStrip(t, IsBacktick);
    var k := |t| - |l|;
    assert IsBacktick(t[0]) && IsBacktick(t[1]) && IsBacktick(t[2]);
    assert l != [] ==> l[0] == t[k] && !IsBacktick(t[k]);
    assert k >= 3;
  }

  /** The fence step: only a text that starts with three backticks is touched; it loses
      its leading and trailing backticks, every "json", and the whitespace that then
      surrounds it. Backticks inside the text stay. */
  function Unfence(t: string): (r: string)
    ensures !(Fence <= t) ==> r == t
    ensures Fence <= t ==> Trimmed(r, IsSpace) && |r| + |Fence| <= |t|
  {
    if Fence <= t then
      var u := Strip(t, IsBacktick);
      FenceShortens(t);
      Strip(RemoveAll(u, Tag), IsSpace)
    else t
  }

  /** What the fence step works on: the text between the leading and the trailing run
      of backticks, which reaches the "json" deletion and the second trim whole. */
  lemma UnfenceStripsEnds(t: string) returns (a: nat, b: nat)
    requires Fence <= t
    ensures |Fence| <= a <= b <= |t|
    ensures forall i :: 0 <= i < a ==> IsBacktick(t[i])
    ensures forall i :: b <= i < |t| ==> IsBacktick(t[i])
    ensures a < b ==> !IsBacktick(t[a]) && !IsBacktick(t[b - 1])
    ensures Unfence(t) == Strip(RemoveAll(t[a..b], Tag), IsSpace)
  {
    var l := LStrip(t, IsBacktick);
    var u := RStrip(l, IsBacktick);
    a := |t| - |l|;
    b := a + |u|;
    assert IsBacktick(t[0]) && IsBacktick(t[1]) && IsBacktick(t[2]);
    assert l == t[a..];
    assert u == l[..|u|] == t[a..b];
    assert forall i :: b <= i < |t| ==> t[i] == l[i - a];
  }

  /** The bracket step: from the first '[' through the last ']' when both occur, the
      empty text when the last ']' comes before the first '[', and the text itself
      when either bracket is missing. */
  function SliceBrackets(t: string): (r: string)
    ensures |r| <= |t|
    ensures ('[' !in t || ']' !in t) ==> r == t
    ensures '[' in t && ']' in t ==>
      (r == [] <==> forall i, j :: 0 <= i < |t| && 0 <= j < |t| && t[i] == '[' && t[j] == ']' ==> j < i)
    ensures '[' in t && ']' in t && r != [] ==> r[0] == '[' && r[|r| - 1] == ']'
  {
    var start := Find(t, '[');
    var end := RFind(t, ']');
    if start != -1 && end != -1 then
      if end + 1 <= start then [] else t[start..end + 1]
    else t
  }

  /** The bracket step keeps one contiguous span of the text, and no '[' lies before
      it and no ']' after it. */
  lemma SliceIsSpan(t: string) returns (k: nat)
    requires '[' in t && ']' in t
    ensures k + |SliceBrackets(t)| <= |t|
    ensures SliceBrackets(t) == t[k..k + |SliceBrackets(t)|]
    ensures forall i :: 0 <= i < k ==> t[i] != '['
    ensures forall i :: k + |SliceBrackets(t)| <= i < |t| ==> t[i] != ']'
  {
    k := Find(t, '[');
  }

  /** Prose around a bracketed span is discarded: if nothing before the span is a '['
      and nothing after it is a ']', the bracket step returns exactly the span. */
  lemma SliceUnique(pre: string, m: string, post: string)
    requires '[' !in pre && ']' !in post
    requires m != [] && m[0] == '[' && m[|m| - 1] == ']'
    ensures SliceBrackets(pre + m + post) == m
  {
    var t := pre + m + post;
    assert t[|pre|] == '[';
    assert t[|pre| + |m| - 1] == ']';
    assert forall i :: 0 <= i < |pre| ==> t[i] == pre[i];
    assert forall i :: |pre| + |m| <= i < |t| ==> t[i] == post[i - |pre| - |m|];
    assert Find(t, '[') == |pre|;
    assert RFind(t, ']') == |pre| + |m| - 1;
    assert t[|pre|..|pre| + |m|] == m;
  }

  /** The text handed to the parser: trimmed, unfenced, then cut to the brackets. It
      is never longer than the reply, and an unfenced reply reaches the bracket step
      as trimmed. */
  function Extract(raw: string): (r: string)
    ensures |r| <= |raw|
    ensures !(Fence <= Strip(raw, IsSpace)) ==> r == SliceBrackets(Strip(raw, IsSpace))
  {
    SliceBrackets(Unfence(Strip(raw, IsSpace)))
  }

  /** The reply wrapped the way the model is asked to wrap it. */
  function Fenced(m: string): string {
    Fence + Tag + "\n" + m + "\n" + Fence
  }

  /** No "json" can straddle the newlines the fence puts around the content. */
  lemma TagNotAcrossNewlines(m: string)
    requires !Occurs(m, Tag)
    ensures !Occurs("\n" + m + "\n", Tag)
  {
    var w := "\n" + m + "\n";
    forall i: nat
      ensures !OccursAt(w, Tag, i)
    {
      if i + |Tag| <= |w| {
        if i == 0 {
          assert w[i] != Tag[0];
        } else if i + |Tag| == |w| {
          assert w[i + 3] != Tag[3];
        } else {
          assert w[i..i + |Tag|] == m[i - 1..i - 1 + |Tag|];
          assert !OccursAt(m, Tag, i - 1);
        }
      }
    }
  }

  /** Stripping backticks off a fenced text leaves the tag line and the content. */
  lemma FenceBackticksStripped(m: string)
    ensures Fence <= Fenced(m)
    ensures Strip(Fenced(m), IsBacktick) == Tag + ("\n" + m + "\n")
  {
    var core := Tag + ("\n" + m + "\n");
    assert Fenced(m) == Fence + core + Fence;
    assert core[0] == 'j' && core[|core| - 1] == '\n';
    StripUnique(Fence, core, Fence, IsBacktick);
  }

  /** Deleting "json" from the tag line and a content free of "json" removes the tag only. */
  lemma TagDeleted(m: string)
    requires !Occurs(m, Tag)
    ensures RemoveAll(Tag + ("\n" + m + "\n"), Tag) == "\n" + m + "\n"
  {
    RemoveAllLeading("\n" + m + "\n", Tag);
    TagNotAcrossNewlines(m);
    RemoveAllAbsent("\n" + m + "\n", Tag);
  }

  /** The fence step undoes the fence: a trimmed content free of "json", wrapped in
      "```json" and "```" on lines of their own, comes back unchanged. */
  lemma UnfenceRoundTrip(m: string)
    requires Trimmed(m, IsSpace) && !Occurs(m, Tag)
    ensures Unfence(Fenced(m)) == m
  {
    FenceBackticksStripped(m);
    TagDeleted(m);
    StripUnique("\n", m, "\n", IsSpace);
  }

  /** The fence step removes backticks only at the ends: a content that neither starts
      nor ends with a backtick or whitespace and holds no "json" keeps every backtick
      inside it. */
  lemma UnfenceKeepsInnerBackticks(m: string)
    requires Trimmed(m, IsBacktick) && Trimmed(m, IsSpace) && !Occurs(m, Tag)
    ensures Unfence(Fence + m + Fence) == m
  {
    assert Fence <= Fence + m + Fence;
    StripUnique(Fence, m, Fence, IsBacktick);
    RemoveAllAbsent(m, Tag);
    StripUnique([], m, [], IsSpace);
    assert [] + m + [] == m;
  }

  /** A text from '[' to ']' has no whitespace at either end. */
  lemma BracketedIsTrimmed(m: string)
    requires m != [] && m[0] == '[' && m[|m| - 1] == ']'
    ensures Trimmed(m, IsSpace)
  {
  }

  /** A fenced text has no whitespace around it for the first trim to remove. */
  lemma FencedIsTrimmed(m: string)
    ensures Extract(Fenced(m)) == SliceBrackets(Unfence(Fenced(m)))
  {
    var t := Fenced(m);
    assert t[0] == '`' && t[|t| - 1] == '`';
    StripUnique([], t, [], IsSpace);
    assert [] + t + [] == t;
  }

  /** A fenced JSON array free of "json" reaches the parser exactly as written. */
  lemma ExtractFenced(m: string)
    requires m != [] && m[0] == '[' && m[|m| - 1] == ']'
    requires !Occurs(m, Tag)
    ensures Extract(Fenced(m)) == m
  {
    FencedIsTrimmed(m);
    BracketedIsTrimmed(m);
    UnfenceRoundTrip(m);
    SliceUnique([], m, []);
    assert [] + m + [] == m;
  }

  /** An unfenced reply loses the prose around its array: whatever stands before the
      first '[' and after the last ']' never reaches the parser. */
  lemma ExtractIgnoresProse(pre: string, m: string, post: string)
    requires '[' !in pre && ']' !in post
    requires m != [] && m[0] == '[' && m[|m| - 1] == ']'
    requires !(Fence <= Strip(pre + m + post, IsSpace))
    ensures Extract(pre + m + post) == m
  {
    var p, q := TrimmedProse(pre, m, post);
    SliceUnique(p, m, q);
    ExtractUnfenced(pre + m + post, p + m + q);
  }

  /** Trimming a reply around a bracketed array leaves part of the prose on each side,
      still without '[' before the array and without ']' after it. */
  lemma TrimmedProse(pre: string, m: string, post: string) returns (p: string, q: string)
    requires '[' !in pre && ']' !in post
    requires m != [] && m[0] == '[' && m[|m| - 1] == ']'
    ensures '[' !in p && ']' !in q
    ensures Strip(pre + m + post, IsSpace) == p + m + q
  {
    var a, b := StripKeepsCore(pre, m, post, IsSpace);
    p, q := pre[a..], post[..b];
    assert forall i :: 0 <= i < |p| ==> p[i] == pre[a + i];
    assert forall i :: 0 <= i < |q| ==> q[i] == post[i];
  }

  /** When the trimmed reply is not fenced, only the bracket step acts on it. */
  lemma ExtractUnfenced(raw: string, s: string)
    requires Strip(raw, IsSpace) == s && !(Fence <= s)
    ensures Extract(raw) == SliceBrackets(s)
  {
  }

  /** `interpret`: the parsed reply when it parses, the fallback list when it does not.
      Only a parse failure selects the fallback; a value of any shape that parses is
      handed on as it is. */
  function Interpret(raw: string, parse: string -> Option<Json>): Json {
    match parse(Extract(raw))
    case Some(v) => v
    case None => FallbackJson()
  }

  /** Only a parse failure selects the fallback list. */
  lemma ParseFailureFallsBack(raw: string, parse: string -> Option<Json>)
    requires parse(Extract(raw)).None?
    ensures Interpret(raw, parse) == FallbackJson()
  {
  }

  /** A parse failure yields exactly the eight fallback pairs, in order, each a
      dictionary with string "artist" and "song" entries. */
  lemma FallbackList(raw: string, parse: string -> Option<Json>)
    requires parse(Extract(raw)).None?
    ensures Interpret(raw, parse).JArray? && |Interpret(raw, parse).items| == 8
    ensures forall i :: 0 <= i < 8 ==>
      Interpret(raw, parse).items[i] ==
        JObject(map[ArtistKey := JString(Fallback[i].artist), SongKey := JString(Fallback[i].song)])
  {
  }

  /** The fallback list names eight different artists, first The Weeknd and last Doja Cat. */
  lemma FallbackArtists()
    ensures |Fallback| == 8
    ensures Fallback[0] == Pick("The Weeknd", "Blinding Lights")
    ensures Fallback[7] == Pick("Doja Cat", "Say So")
    ensures forall i, j :: 0 <= i < j < |Fallback| ==> Fallback[i].artist != Fallback[j].artist
  {
  }

  /** The model's fenced answer is what the handler works on, when it parses. */
  lemma InterpretFenced(m: string, parse: string -> Option<Json>, v: Json)
    requires m != [] && m[0] == '[' && m[|m| - 1] == ']'
    requires !Occurs(m, Tag)
    requires parse(m) == Some(v)
    ensures Interpret(Fenced(m), parse) == v
  {
    ExtractFenced(m);
  }
}

=== FILE: pytext.dfy ===
/** The Python `str` operations the handler relies on, over `seq<char>`:
    `strip()`, `strip(chars)`, `find`, `rfind`, `replace(pat, "")` and `lower()`. */
module PyText {

  /** Python's `str.isspace()`: the characters `str.strip()` removes when given no argument. */
  predicate IsSpace(c: char) {
    || c == ' '
    || ('\t' <= c <= '\r')
    || ('\U{1C}' <= c <= '\U{1F}')
    || c == '\U{85}'
    || c == '\U{A0}'
    || c == '\U{1680}'
    || ('\U{2000}' <= c <= '\U{200A}')
    || c == '\U{2028}'
    || c == '\U{2029}'
    || c == '\U{202F}'
    || c == '\U{205F}'
    || c == '\U{3000}'
  }

  /** `s` neither starts nor ends with a character `drop` accepts. */
  predicate Trimmed(s: string, drop: char -> bool) {
    s == [] || (!drop(s[0]) && !drop(s[|s| - 1]))
  }

  /** `s.lstrip(...)`: removes the longest prefix of characters that `drop` accepts. */
  function LStrip(s: string, drop: char -> bool): (r: string)
    ensures |r| <= |s| && r == s[|s| - |r|..]
    ensures forall i :: 0 <= i < |s| - |r| ==> drop(s[i])
    ensures r != [] ==> !drop(r[0])
    decreases |s|
  {
    if s != [] && drop(s[0]) then LStrip(s[1..], drop) else s
  }

  /** `s.rstrip(...)`: removes the longest suffix of characters that `drop` accepts. */
  function RStrip(s: string, drop: char -> bool): (r: string)
    ensures |r| <= |s| && r == s[..|r|]
    ensures forall i :: |r| <= i < |s| ==> drop(s[i])
    ensures r != [] ==> !drop(r[|r| - 1])
    decreases |s|
  {
    if s != [] && drop(s[|s| - 1]) then RStrip(s[..|s| - 1], drop) else s
  }

  /** `s.strip(...)`: the infix left once both ends are cleared of `drop` characters. */
  function Strip(s: string, drop: char -> bool): (r: string)
    ensures Trimmed(r, drop)
    ensures |r| <= |s|
  {
    RStrip(LStrip(s, drop), drop)
  }

  /** A `drop`-only prefix in front of text that does not start with a `drop`
      character is exactly what `LStrip` removes. */
  lemma {:induction false} LStripDropsPrefix(pre: string, x: string, drop: char -> bool)
    requires forall i :: 0 <= i < |pre| ==> drop(pre[i])
    requires x == [] || !drop(x[0])
    ensures LStrip(pre + x, drop) == x
    decreases |pre|
  {
    if pre == [] {
      assert pre + x == x;
    } else {
      assert (pre + x)[0] == pre[0];
      assert (pre + x)[1..] == pre[1..] + x;
      LStripDropsPrefix(pre[1..], x, drop);
    }
  }

  /** A `drop`-only suffix behind text that does not end with a `drop` character
      is exactly what `RStrip` removes. */
  lemma {:induction false} RStripDropsSuffix(y: string, post: string, drop: char -> bool)
    requires forall i :: 0 <= i < |post| ==> drop(post[i])
    requires y == [] || !drop(y[|y| - 1])
    ensures RStrip(y + post, drop) == y
    decreases |post|
  {
    if post == [] {
      assert y + post == y;
    } else {
      var n := |y + post|;
      assert (y + post)[n - 1] == post[|post| - 1];
      assert (y + post)[..n - 1] == y + post[..|post| - 1];
      RStripDropsSuffix(y, post[..|post| - 1], drop);
    }
  }

  /** Stripping a text made of a `drop`-only prefix, a trimmed core and a `drop`-only
      suffix gives back exactly the core: `Strip` removes nothing but the ends. */
  lemma StripUnique(pre: string, m: string, post: string, drop: char -> bool)
    requires forall i :: 0 <= i < |pre| ==> drop(pre[i])
    requires forall i :: 0 <= i < |post| ==> drop(post[i])
    requires Trimmed(m, drop)
    ensures Strip(pre + m + post, drop) == m
  {
    if m == [] {
      var p := pre + post;
      assert pre + m + post == p + [];
      LStripDropsPrefix(p, [], drop);
      RStripDropsSuffix([], [], drop);
    } else {
      assert pre + m + post == pre + (m + post);
      assert (m + post)[0] == m[0];
      LStripDropsPrefix(pre, m + post, drop);
      RStripDropsSuffix(m, post, drop);
    }
  }

  /** `LStrip` in front of a non-`drop` character only ever eats into the prefix. */
  lemma LStripStopsBefore(pre: string, x: string, drop: char -> bool) returns (a: nat)
    requires x != [] && !drop(x[0])
    ensures a <= |pre|
    ensures LStrip(pre + x, drop) == pre[a..] + x
  {
    a := |pre| - |LStrip(pre, drop)|;
    var z := pre[a..] + x;
    assert z[0] == if a < |pre| then pre[a] else x[0];
    assert pre + x == pre[..a] + z;
    LStripDropsPrefix(pre[..a], z, drop);
  }

  /** `RStrip` behind a non-`drop` character only ever eats into the suffix. */
  lemma RStripStopsAfter(y: string, post: string, drop: char -> bool) returns (b: nat)
    requires y != [] && !drop(y[|y| - 1])
    ensures b <= |post|
    ensures RStrip(y + post, drop) == y + post[..b]
  {
    b := |RStrip(post, drop)|;
    var z := y + post[..b];
    assert z[|z| - 1] == if b > 0 then post[b - 1] else y[|y| - 1];
    assert y + post == z + post[b..];
    RStripDropsSuffix(z, post[b..], drop);
  }

  /** Stripping a text whose core has non-`drop` ends keeps that core whole: the result
      is a suffix of the prefix, the core, and a prefix of the suffix. */
  lemma StripKeepsCore(pre: string, m: string, post: string, drop: char -> bool)
    returns (a: nat, b: nat)
    requires m != [] && Trimmed(m, drop)
    ensures a <= |pre| && b <= |post|
    ensures Strip(pre + m + post, drop) == pre[a..] + m + post[..b]
  {
    assert pre + m + post == pre + (m + post);
    a := LStripStopsBefore(pre, m + post, drop);
    assert pre[a..] + (m + post) == (pre[a..] + m) + post;
    b := RStripStopsAfter(pre[a..] + m, post, drop);
  }

  /** `s.find(c)`: the index of the first `c`, or -1 when there is none. */
  function Find(s: string, c: char): (r: int)
    ensures -1 <= r < |s|
    ensures r == -1 <==> c !in s
    ensures 0 <= r ==> s[r] == c
    ensures forall i :: 0 <= i < |s| && (r == -1 || i < r) ==> s[i] != c
    decreases |s|
  {
    if s == [] then -1
    else if s[0] == c then 0
    else
      var k := Find(s[1..], c);
      if k == -1 then -1 else k + 1
  }

  /** `s.rfind(c)`: the index of the last `c`, or -1 when there is none. */
  function RFind(s: string, c: char): (r: int)
    ensures -1 <= r < |s|
    ensures r == -1 <==> c !in s
    ensures 0 <= r ==> s[r] == c
    ensures forall i :: 0 <= i < |s| && r < i ==> s[i] != c
    decreases |s|
  {
    if s == [] then -1
    else if s[|s| - 1] == c then |s| - 1
    else
      var k := RFind(s[..|s| - 1], c);
      assert s == s[..|s| - 1] + [s[|s| - 1]];
      if k == -1 then -1 else k
  }

  /** `pat` occurs in `s` starting at index `i`. */
  predicate OccursAt(s: string, pat: string, i: nat) {
    i + |pat| <= |s| && s[i..i + |pat|] == pat
  }

  /** Python's `pat in s`. */
  ghost predicate Occurs(s: string, pat: string) {
    exists i: nat :: OccursAt(s, pat, i)
  }

  /** `s.replace(pat, "")`: scans left to right, deleting each non-overlapping
      occurrence of `pat`; text that only becomes `pat` after a deletion stays. */
  function RemoveAll(s: string, pat: string): (r: string)
    requires pat != []
    ensures |r| <= |s|
    decreases |s|
  {
    if |s| < |pat| then s
    else if s[..|pat|] == pat then RemoveAll(s[|pat|..], pat)
    else [s[0]] + RemoveAll(s[1..], pat)
  }

  /** The characters of `s` that do not occur in `pat`, in order. */
  function Keep(s: string, pat: string): (r: string)
    ensures |r| <= |s|
  {
    if s == [] then [] else (if s[0] in pat then [] else [s[0]]) + Keep(s[1..], pat)
  }

  lemma {:induction false} KeepAppend(a: string, b: string, pat: string)
    ensures Keep(a + b, pat) == Keep(a, pat) + Keep(b, pat)
    decreases |a|
  {
    if a != [] {
      assert (a + b)[1..] == a[1..] + b;
      KeepAppend(a[1..], b, pat);
    } else {
      assert a + b == b;
    }
  }

  lemma {:induction false} KeepOwnCharacters(s: string, pat: string)
    requires forall i :: 0 <= i < |s| ==> s[i] in pat
    ensures Keep(s, pat) == []
    decreases |s|
  {
    if s != [] {
      KeepOwnCharacters(s[1..], pat);
    }
  }

  /** Deleting occurrences of `pat` never drops, adds or reorders a character that
      is not itself part of `pat`. */
  lemma {:induction false} RemoveAllKeepsOtherCharacters(s: string, pat: string)
    requires pat != []
    ensures Keep(RemoveAll(s, pat), pat) == Keep(s, pat)
    decreases |s|
  {
    if |s| < |pat| {
    } else if s[..|pat|] == pat {
      RemoveAllKeepsOtherCharacters(s[|pat|..], pat);
      assert s == s[..|pat|] + s[|pat|..];
      KeepAppend(s[..|pat|], s[|pat|..], pat);
      KeepOwnCharacters(pat, pat);
    } else {
      RemoveAllKeepsOtherCharacters(s[1..], pat);
      assert s == [s[0]] + s[1..];
      KeepAppend([s[0]], s[1..], pat);
      KeepAppend([s[0]], RemoveAll(s[1..], pat), pat);
    }
  }

  /** A text free of `pat` is left unchanged by `replace(pat, "")`. */
  lemma {:induction false} RemoveAllAbsent(s: string, pat: string)
    requires pat != []
    requires !Occurs(s, pat)
    ensures RemoveAll(s, pat) == s
    decreases |s|
  {
    if |s| < |pat| {
    } else if s[..|pat|] == pat {
      assert OccursAt(s, pat, 0);
    } else {
      assert !Occurs(s[1..], pat) by {
        forall i: nat | OccursAt(s[1..], pat, i)
          ensures OccursAt(s, pat, i + 1)
        {
          assert s[1..][i..i + |pat|] == s[i + 1..i + 1 + |pat|];
        }
      }
      RemoveAllAbsent(s[1..], pat);
    }
  }

  /** `replace` deletes the first occurrence of `pat`, keeps the text before it as it
      is, and carries on after it. */
  lemma RemoveAllFirst(s: string, pat: string, i: nat)
    requires pat != []
    requires OccursAt(s, pat, i)
    requires forall j: nat :: j < i ==> !OccursAt(s, pat, j)
    ensures RemoveAll(s, pat) == s[..i] + RemoveAll(s[i + |pat|..], pat)
  {
    assert s == s[..i] + s[i..];
    RemoveAllPrefix(s[..i], s[i..], pat);
    assert s[i..] == pat + s[i + |pat|..];
    RemoveAllLeading(s[i + |pat|..], pat);
  }

  /** A prefix in which no occurrence of `pat` starts is kept as it is. */
  lemma {:induction false} RemoveAllPrefix(x: string, y: string, pat: string)
    requires pat != []
    requires forall j: nat :: j < |x| ==> !OccursAt(x + y, pat, j)
    ensures RemoveAll(x + y, pat) == x + RemoveAll(y, pat)
    decreases |x|
  {
    if x == [] {
      assert x + y == y;
    } else {
      var w := x + y;
      assert w[1..] == x[1..] + y;
      forall j: nat | j < |x| - 1
        ensures !OccursAt(x[1..] + y, pat, j)
      {
        OccursAtTail(w, pat, j);
      }
      RemoveAllPrefix(x[1..], y, pat);
      RemoveAllSkips(w, pat);
      assert [x[0]] + (x[1..] + RemoveAll(y, pat)) == x + RemoveAll(y, pat);
    }
  }

  /** A text that does not start with `pat` keeps its first character. */
  lemma RemoveAllSkips(s: string, pat: string)
    requires pat != [] && s != [] && !OccursAt(s, pat, 0)
    ensures RemoveAll(s, pat) == [s[0]] + RemoveAll(s[1..], pat)
  {
  }

  /** An occurrence in `s[1..]` is an occurrence in `s` one index later. */
  lemma OccursAtTail(s: string, pat: string, j: nat)
    requires s != []
    ensures OccursAt(s[1..], pat, j) <==> OccursAt(s, pat, j + 1)
  {
    if j + |pat| <= |s| - 1 {
      assert s[1..][j..j + |pat|] == s[j + 1..j + 1 + |pat|];
    }
  }

  /** A text that starts with `pat` loses that occurrence first. */
  lemma RemoveAllLeading(rest: string, pat: string)
    requires pat != []
    ensures RemoveAll(pat + rest, pat) == RemoveAll(rest, pat)
  {
    assert (pat + rest)[..|pat|] == pat;
    assert (pat + rest)[|pat|..] == rest;
  }

  /** `replace` is not idempotent: deleting "json" from "jsjsonon" leaves "json". */
  lemma RemoveAllCanCreateOccurrence()
    ensures RemoveAll("jsjsonon", "json") == "json"
    ensures Occurs(RemoveAll("jsjsonon", "json"), "json")
  {
    var s := "jsjsonon";
    assert s[..4][2] != 'o';
    assert s[1..] == "sjsonon";
    assert s[1..][..4][0] != 'j';
    assert s[1..][1..] == "jsonon";
    assert s[2..][..4] == "json";
    assert s[2..][4..] == "on";
    assert OccursAt("json", "json", 0);
  }

  /** ASCII `str.lower()` on one character. */
  function LowerChar(c: char): (r: char)
    ensures !('A' <= r <= 'Z')
  {
    if 'A' <= c <= 'Z' then (c as int + 32) as char else c
  }

  /** `s.lower()`, character by character. */
  function Lower(s: string): (r: string)
    ensures |r| == |s|
    ensures forall i :: 0 <= i < |r| ==> !('A' <= r[i] <= 'Z')
  {
    seq(|s|, i requires 0 <= i < |s| => LowerChar(s[i]))
  }

  /** Lower-casing twice is lower-casing once. */
  lemma LowerIdempotent(s: string)
    ensures Lower(Lower(s)) == Lower(s)
  {
  }

  /** Lower-casing leaves every character that is not an upper-case ASCII letter,
      and maps each upper-case letter to its lower-case partner. */
  lemma LowerCharacters(s: string)
    ensures forall i :: 0 <= i < |s| && !('A' <= s[i] <= 'Z') ==> Lower(s)[i] == s[i]
    ensures forall i :: 0 <= i < |s| && 'A' <= s[i] <= 'Z' ==> Lower(s)[i] as int == s[i] as int + 32
  {
  }
}

=== FILE: values.dfy ===
/** Python values as produced by `json.loads`, and the exceptions the handler can raise on them. */
module Values {

  /** A decoded JSON document. Objects are finite maps: the insertion order of
      Python dictionaries is not part of this model. Numbers keep their text. */
  datatype Json =
    | JNull
    | JBool(b: bool)
    | JNumber(text: string)
    | JString(s: string)
    | JArray(items: seq<Json>)
    | JObject(fields: map<string, Json>)

  /** The exception classes the request path can raise; each ends in the 500 response. */
  datatype Fault =
    | KeyError(key: string)   // `rec["song"]` on a dict without that key
    | TypeError               // subscripting or iterating a value that does not support it
    | AttributeError          // `.lower()` on a value that is not a string
    | IndexError              // `images[1]` on a list with fewer than two images
    | DecodeError             // `resp.json()` on a reply body that is not the expected JSON
    | RequestError            // `requests.post` or `requests.get` getting no reply at all
}

=== FILE: wrappers.dfy ===
/** Failure-carrying wrappers used throughout the model. */
module Wrappers {

  /** A value that may be absent: Python's `None` versus a present value. */
  datatype Option<+T> = None | Some(value: T)

  /** The outcome of a step that may raise: a value, or the exception it raised. */
  datatype Result<+T, +E> = Success(value: T) | Failure(error: E)
}
